=== FILE: README.md ===
# ppip install planning, in Dafny

ppip installs Python packages in parallel. Its input is the forest printed by
`pipdeptree --json-tree`. Each node has a `key`, an `installed_version` and a
list of `dependencies`. `ParallelInstaller` turns that forest into levels of
PackageIDs (`key==installed_version`) and hands one pip command per PackageID
of each level to a thread pool. This project models the planning part and proves what it
computes:

- `tree.dfy` (module `DependencyTree`): the forest as an immutable datatype.
  It also defines the PackageID, the node count, which nodes occur in a forest,
  node heights, and the pre-order outline of a forest.
- `leaf_removal.dfy` (module `LeafRemoval`): one leaf-removal pass. The source
  deletes nodes in place. Here the pass instead returns the forest it leaves
  behind. `LeafIds` and `Prune` describe what the pass computes.
  `RemoveLeafNodes` follows the source's index-driven walk and is proved equal
  to them.
- `leveling.dfy` (module `Leveling`): the flattening strategy, the
  level-building strategy and its deduplication step. Each comes both as a
  pure definition and as a method that follows the source's loops.
- `installer.dfy` (module `Installer`): the pip argument list, a parser that
  inverts it, the mode switch of `install`, and the commands a run submits.
- `scenarios.dfy` (module `Scenarios`): small forests worked through the
  model.

A pass takes exactly the nodes of height 0. A node whose dependencies all
disappear during a pass waits for the next pass. So pass `i` takes exactly the
nodes of height `i`, and the build yields one level per unit of forest depth.

## What the plan does not guarantee

The model follows the code, and the code leaves these cases open:

- A PackageID can stay in two levels that are not next to each other.
  Deduplication only removes from level `i+1` the PackageIDs of level `i`, as
  level `i` was before the step. `Scenarios.PackageKeptTwice` shows a
  PackageID kept in levels 0 and 2. Such a PackageID is then submitted, and
  installed, once for each level it stays in, and with no barrier between
  levels the two installs can run at the same time
  (`Scenarios.PackageInstalledTwice`).
- A level that deduplication empties is kept in the plan.
  `Scenarios.EmptyLevelKept` shows such a case.
- Flattening an empty forest gives one empty level (`[{}]`), while building
  gives no levels. See `Scenarios.EmptyForest`.
- The built plan can put a package below one of its own dependencies when a
  PackageID occurs with different dependency lists. In
  `Scenarios.PackageBelowItsDependency` the root `p` is a leaf, and another
  occurrence of `p` depends on `s`. The plan puts `p` in level 0 and `s` in
  level 1.
- Every level is submitted to the thread pool at once. There is no barrier
  between levels, and that part is not modelled (see below).

The first, second and fourth cases cannot happen when the forest is
consistent, that is, when every occurrence of a PackageID has the same
dependency list. The empty forest is consistent, and the missing barrier does
not depend on the forest. In a consistent forest all occurrences
have the same height, so each PackageID is recorded in exactly one level.
Deduplication then changes nothing (`Leveling.ConsistentBuildIsLevels`), and
every dependency of a package lands in a lower level
(`Leveling.ConsistentBuildValid`).

## Model

| member | source | states |
|---|---|---|
| DependencyTree.PackageId | installer/parallel_installer.py:69-73 | the PackageID is the key, then `==`, then the installed version |
| LeafRemoval.LeafIds | installer/parallel_installer.py:64-81 | the set of PackageIDs one pass records; they are all PackageIDs of the forest (their exact meaning is `LeafIdsAreLeaves`) |
| LeafRemoval.Prune | installer/parallel_installer.py:64-80 | the forest one pass leaves behind; it has no more roots than the input (its exact shape is `PruneKeepsInterior`) |
| LeafRemoval.RemoveLeafNodes | installer/parallel_installer.py:58-81 | the in-place walk returns exactly the PackageIDs of the leaves and the pruned forest |
| LeafRemoval.LeafIdsAreLeaves | installer/parallel_installer.py:64-81 | a pass records a PackageID iff some node with that ID, at any depth, had no dependencies before the pass |
| LeafRemoval.PruneKeepsInterior | installer/parallel_installer.py:68-80 | the remaining forest is the input with its leaf occurrences deleted; every other node keeps its key, version, depth and pre-order position |
| LeafRemoval.PruneShrinks | installer/parallel_installer.py:66-80 | a pass never adds nodes, and on a non-empty forest it deletes at least one (this bounds the loops at lines 86 and 92) |
| LeafRemoval.LeafIdsNonEmpty | installer/parallel_installer.py:66-75 | a pass on a non-empty forest records at least one PackageID |
| LeafRemoval.AllIdsSplit | installer/parallel_installer.py:68-81 | each PackageID of the forest is recorded by the pass or survives it; no other ID appears in either |
| LeafRemoval.PruneDepth | installer/parallel_installer.py:76-80 | the remaining forest needs exactly one pass fewer |
| LeafRemoval.PruneLowersHeights | installer/parallel_installer.py:68-80 | a pass records exactly the height-0 nodes, and each surviving node's height drops by one |
| LeafRemoval.PruneAppend | installer/parallel_installer.py:65-80 | the forest a pass leaves behind a list of roots `a + b` is what it leaves of `a` followed by what it leaves of `b` |
| LeafRemoval.LeafIdsAppend | installer/parallel_installer.py:65-80 | a pass over the roots `a + b` records what it records over `a` together with what it records over `b` |
| Leveling.Drain | installer/parallel_installer.py:85-87 | unioning the passes until the forest is empty collects every PackageID of the forest |
| Leveling.Flatten | installer/parallel_installer.py:83-88 | the flat plan has exactly one level, holding every PackageID of the forest, even for an empty forest |
| Leveling.FlattenDependencyTree | installer/parallel_installer.py:83-88 | the source's loop yields a one-level plan of all PackageIDs |
| Leveling.Levels | installer/parallel_installer.py:91-93 | before deduplication there is one level per pass, every level is non-empty, and together they hold exactly the forest's PackageIDs |
| Leveling.LevelsByHeight | installer/parallel_installer.py:91-93 | level `i` holds exactly the PackageIDs of the nodes of height `i` |
| Leveling.Dedup | installer/parallel_installer.py:95-104 | level 0 is unchanged; each higher level loses exactly the PackageIDs of the original level below it, and nothing else |
| Leveling.DedupLevels | installer/parallel_installer.py:95-104 | the source's top-down loop with its early exit computes `Dedup` |
| Leveling.BuildDependencyTree | installer/parallel_installer.py:90-104 | the source's two loops compute the built plan, with one level per pass |
| Leveling.FirstLevel | installer/parallel_installer.py:91-93 | the lowest level that records a PackageID |
| Leveling.DedupAdjacentDisjoint | installer/parallel_installer.py:96-102 | adjacent levels of a deduplicated plan are disjoint |
| Leveling.DedupKeepsLowest | installer/parallel_installer.py:96-102 | every PackageID survives in the lowest level it was first recorded at |
| Leveling.DedupPreservesUnion | installer/parallel_installer.py:96-102 | deduplication neither loses nor adds a PackageID |
| Leveling.Build | installer/parallel_installer.py:90-104 | the built plan has one level per pass, adjacent levels are disjoint, and level 0 is exactly what the first pass records |
| Leveling.BuildCoversForest | installer/parallel_installer.py:90-104 | the built plan schedules every PackageID of the forest and nothing else, each at the lowest level a pass recorded it at |
| Leveling.ScheduledByHeight | installer/parallel_installer.py:90-104 | each node's PackageID is in the level of its height before deduplication, and is scheduled at or below it after |
| Leveling.ConsistentLevelsDisjoint | installer/parallel_installer.py:90-93 | when every occurrence of a PackageID has the same dependencies, no two levels share a PackageID |
| Leveling.ConsistentBuildIsLevels | installer/parallel_installer.py:90-104 | when every occurrence of a PackageID has the same dependencies, deduplication leaves the levels unchanged |
| Leveling.ConsistentBuildValid | installer/parallel_installer.py:90-104 | when every occurrence of a PackageID has the same dependencies, each dependency of a package in level `i` of the built plan is in some level below `i` |
| Leveling.BuildRespectsDependencies | installer/parallel_installer.py:90-104 | every dependency of a node is scheduled in a level strictly below the one the passes assigned that node to |
| Installer.InstallCommand | installer/parallel_installer.py:42-50 | the argument list starts with pip, `install` and the package, and has 3 to 7 elements |
| Installer.CommandRoundTrip | installer/parallel_installer.py:43-50 | the parser reads back pip, the package, `--no-cache-dir` iff the cache is disabled, `--no-deps` iff dependency checking is skipped, and the target iff one is set, in that order |
| Installer.ParsedCommandIsBuilt | installer/parallel_installer.py:43-50 | every argument list the parser accepts is the one built from what it reads |
| Installer.SelectPlan | installer/parallel_installer.py:110-113 | skipping the dependency check gives the one-level flat plan; otherwise the built plan. Both cover exactly the forest's PackageIDs |
| Installer.Install | installer/parallel_installer.py:114-117 | each level's commands are pip commands for PackageIDs of that level, with `--no-deps` iff dependency checking is skipped |
| Installer.InstallLevel | installer/parallel_installer.py:115-117 | a package's command is submitted with a level iff the package is in that level |
| Installer.InstallSubmitsEveryPackage | installer/parallel_installer.py:110-117 | a run submits a command for every PackageID of the forest and for no other package |
| Scenarios.ExamplePlan | installer/parallel_installer.py:58-104 | for `a(b, c(d)), d`, building gives `{b, d}, {c}, {a}` and flattening gives `{a, b, c, d}` |
| Scenarios.ExampleFirstPass | installer/parallel_installer.py:64-81 | the first pass over that forest takes `b` and `d`, and leaves `c` emptied but not taken |
| Scenarios.EmptiedParentWaits | installer/parallel_installer.py:76-80 | a parent whose only dependency a pass takes is left, with no dependencies, for the next pass |
| Scenarios.EmptyForest | installer/parallel_installer.py:83-95 | an empty forest flattens to one empty level and builds to no levels |
| Scenarios.PackageKeptTwice | installer/parallel_installer.py:95-104 | a PackageID at heights 0 and 2 stays in levels 0 and 2 after deduplication |
| Scenarios.PackageInstalledTwice | installer/parallel_installer.py:110-117 | with the dependency check on, the pip command for the package kept twice is submitted with level 0 and again with level 2 |
| Scenarios.EmptyLevelKept | installer/parallel_installer.py:95-104 | a level emptied by deduplication stays in the plan |
| Scenarios.PackageBelowItsDependency | installer/parallel_installer.py:90-104 | for `p, q(p(x)), r(p(s(y)))` the built plan is `{p, x, y}, {s}, {q}, {r}`, so `p` sits below `s`, a dependency of one of its occurrences |

`ParseCommand` has no counterpart in the source. It is the inverse of the
argument list and is used to state that list's shape.

## Left out

- The thread pool in `install` (installer/parallel_installer.py:114-117) and the
  `threads` setting are not modelled. `Installer.Install` gives the commands of
  each level, not when they run. The source submits every level at once with
  no barrier, and that ordering is concurrent behaviour.
- Running pip (installer/parallel_installer.py:52-56) is not modelled: the
  subprocess call, printing the exit code and `sys.exit`. These are process I/O.
- The caller's forest is never mutated in the model. The source copies only
  the outer list, so its passes empty the nested dependency lists of the
  caller's structure. Here the forest is immutable and each pass returns a new one.
- In the source, `_dependency_tree` is an attribute. A second call to
  `_build_dependency_tree` appends to the levels of the first. The model
  computes the levels of one run, starting with no levels.
- Within a level, the order in which pip commands are submitted is left out,
  because it is Python's iteration order over a set.
- The command line in ppip.py (flag parsing, reading the JSON file, exiting on
  bad input) is I/O glue and is not modelled. A missing target directory is
  `None` there. The model uses the empty string, which the source also treats as
  "no target".
- The `leaf_nodes` accumulator parameter of `_remove_leaf_nodes`
  (installer/parallel_installer.py:58-63) is not modelled as a shared list.
  The recursive calls append to the caller's list, and the model unions the
  sets of the sub-walks instead. The result is the same set.
- Python's recursion limit is not modelled. A very deep forest makes the
  recursive walk raise `RecursionError` in the source; the model has no
  depth bound.
- Malformed JSON nodes are not modelled. A node missing a key raises `KeyError`
  in the source, and such a node cannot be written as a `Node`.

=== FILE: installer.dfy ===
/**
 The installer's own choices: which planning strategy a run uses, and the pip
 command line it submits for each PackageID of the plan. Running pip and the
 thread pool that runs the commands are outside this model.
 */
module Installer {
  import opened DependencyTree
  import opened LeafRemoval
  import opened Leveling

  /** The installer's settings. An absent target directory is the empty string
      (the source tests the target for truthiness, so `None` and `""` agree). */
  datatype Config = Config(pipPath: string, target: string, skipDependencyCheck: bool, noCacheDir: bool)

  datatype Option<T> = None | Some(value: T)

  /** What a pip command line asks for. */
  datatype Invocation = Invocation(pipPath: string, pkg: string, noCacheDir: bool, noDeps: bool, target: string)

  /** The argument list handed to pip for one PackageID. */
  function InstallCommand(cfg: Config, pkg: string): (cmd: seq<string>)
    ensures 3 <= |cmd| <= 7
    ensures cmd[..3] == [cfg.pipPath, "install", pkg]
  {
    [cfg.pipPath, "install", pkg]
      + (if cfg.noCacheDir then ["--no-cache-dir"] else [])
      + (if cfg.skipDependencyCheck then ["--no-deps"] else [])
      + (if cfg.target != "" then ["--target", cfg.target] else [])
  }

  /** Reads an argument list of the shape the installer builds: pip, `install`,
      the package, then `--no-cache-dir`, `--no-deps` and `--target <dir>`, each
      optional and in that order. Anything else is rejected. */
  function ParseCommand(cmd: seq<string>): Option<Invocation>
  {
    if |cmd| < 3 || cmd[1] != "install" then None
    else
      var noCache := |cmd| > 3 && cmd[3] == "--no-cache-dir";
      var i := if noCache then 4 else 3;
      var noDeps := |cmd| > i && cmd[i] == "--no-deps";
      var j := if noDeps then i + 1 else i;
      if j == |cmd| then Some(Invocation(cmd[0], cmd[2], noCache, noDeps, ""))
      else if j + 2 == |cmd| && cmd[j] == "--target" && cmd[j + 1] != "" then
        Some(Invocation(cmd[0], cmd[2], noCache, noDeps, cmd[j + 1]))
      else None
  }

  /** The argument list carries the package after pip and `install`, then
      `--no-cache-dir` exactly when the cache is disabled, `--no-deps` exactly
      when dependency checking is skipped, and `--target` with the directory
      exactly when one is set, in that order. */
  lemma CommandRoundTrip(cfg: Config, pkg: string)
    ensures ParseCommand(InstallCommand(cfg, pkg))
         == Some(Invocation(cfg.pipPath, pkg, cfg.noCacheDir, cfg.skipDependencyCheck, cfg.target))
  {
    var cmd := InstallCommand(cfg, pkg);
    var c := if cfg.noCacheDir then 1 else 0;
    var d := if cfg.skipDependencyCheck then 1 else 0;
    assert cfg.noCacheDir ==> cmd[3] == "--no-cache-dir";
    assert cfg.skipDependencyCheck ==> cmd[3 + c] == "--no-deps";
    assert cfg.target != "" ==> cmd[3 + c + d..] == ["--target", cfg.target];
  }

  /** Every argument list the parser accepts is the one the installer builds
      for the settings and package it reads. */
  lemma ParsedCommandIsBuilt(cmd: seq<string>)
    requires ParseCommand(cmd).Some?
    ensures var inv := ParseCommand(cmd).value;
            cmd == InstallCommand(Config(inv.pipPath, inv.target, inv.noDeps, inv.noCacheDir), inv.pkg)
  {
    var inv := ParseCommand(cmd).value;
    var built := InstallCommand(Config(inv.pipPath, inv.target, inv.noDeps, inv.noCacheDir), inv.pkg);
    assert |built| == |cmd|;
    assert forall k :: 0 <= k < |cmd| ==> built[k] == cmd[k];
  }

  /** The mode switch: skipping the dependency check flattens the forest into
      one level; otherwise the plan is built level by level. */
  function SelectPlan(cfg: Config, f: Forest): (plan: Plan)
    ensures Union(plan) == AllIds(f)
    ensures cfg.skipDependencyCheck ==> plan == [AllIds(f)]
    ensures !cfg.skipDependencyCheck ==> |plan| == Depth(f)
    ensures !cfg.skipDependencyCheck ==> forall i :: 0 < i < |plan| ==> plan[i] !! plan[i - 1]
    ensures !cfg.skipDependencyCheck && |f| > 0 ==> plan[0] == LeafIds(f)
  {
    BuildCoversForest(f);
    assert Union([AllIds(f)]) == AllIds(f);
    if cfg.skipDependencyCheck then Flatten(f) else Build(f)
  }

  /** The work `install` hands to the pool: per level of the selected plan, the
      pip command of every PackageID in it. */
  function Install(cfg: Config, f: Forest): (jobs: seq<set<seq<string>>>)
    ensures |jobs| == |SelectPlan(cfg, f)|
    ensures forall i, cmd :: 0 <= i < |jobs| && cmd in jobs[i] ==>
              ParseCommand(cmd).Some?
              && ParseCommand(cmd).value.pkg in SelectPlan(cfg, f)[i]
              && ParseCommand(cmd).value.noDeps == cfg.skipDependencyCheck
  {
    var plan := SelectPlan(cfg, f);
    forall pkg | true
      ensures ParseCommand(InstallCommand(cfg, pkg))
           == Some(Invocation(cfg.pipPath, pkg, cfg.noCacheDir, cfg.skipDependencyCheck, cfg.target))
    {
      CommandRoundTrip(cfg, pkg);
    }
    seq(|plan|, i requires 0 <= i < |plan| => set pkg | pkg in plan[i] :: InstallCommand(cfg, pkg))
  }

  /** The commands of one level are those of its PackageIDs. */
  lemma InstallLevel(cfg: Config, f: Forest, i: nat, p: string)
    requires i < |Install(cfg, f)|
    ensures InstallCommand(cfg, p) in Install(cfg, f)[i] <==> p in SelectPlan(cfg, f)[i]
  {
    var cmd := InstallCommand(cfg, p);
    if cmd in Install(cfg, f)[i] {
      var q :| q in SelectPlan(cfg, f)[i] && InstallCommand(cfg, q) == cmd;
      assert InstallCommand(cfg, q)[2] == q;
    }
  }

  /** A run submits a pip command for every PackageID of the forest and for
      nothing else, in either mode. */
  lemma InstallSubmitsEveryPackage(cfg: Config, f: Forest, p: string)
    ensures p in AllIds(f) ==>
              exists i :: 0 <= i < |Install(cfg, f)| && InstallCommand(cfg, p) in Install(cfg, f)[i]
    ensures forall i :: 0 <= i < |Install(cfg, f)| && InstallCommand(cfg, p) in Install(cfg, f)[i] ==>
              p in AllIds(f)
  {
    var plan := SelectPlan(cfg, f);
    InUnion(plan, p);
    if p in AllIds(f) {
      var i :| 0 <= i < |plan| && p in plan[i];
      InstallLevel(cfg, f, i, p);
    }
    forall i | 0 <= i < |Install(cfg, f)| && InstallCommand(cfg, p) in Install(cfg, f)[i]
      ensures p in AllIds(f)
    {
      InstallLevel(cfg, f, i, p);
    }
  }
}

=== FILE: leaf_removal.dfy ===
/**
 One leaf-removal pass over the dependency forest. The pass walks the roots in
 order; a node without dependencies is recorded under its PackageID and deleted,
 any other node has the pass applied to its own dependency list. A node whose
 dependencies all disappear during the pass stays for the next pass.

 `LeafIds` and `Prune` describe the two results of the pass (the PackageIDs it
 records and the forest it leaves behind); `RemoveLeafNodes` is the index-driven
 walk that deletes in place, proved to compute them.
 */
module LeafRemoval {
  import opened DependencyTree

  /** The PackageIDs the pass records: nodes whose dependency list is empty
      before the pass. */
  function LeafIds(f: Forest): (ids: set<string>)
    ensures ids <= AllIds(f)
  {
    if |f| == 0 then {}
    else (if |f[0].deps| == 0 then {PackageId(f[0])} else LeafIds(f[0].deps)) + LeafIds(f[1..])
  }

  /** The forest the pass leaves behind. */
  function Prune(f: Forest): (rest: Forest)
    ensures |rest| <= |f|
  {
    if |f| == 0 then []
    else if |f[0].deps| == 0 then Prune(f[1..])
    else [Node(f[0].key, f[0].version, Prune(f[0].deps))] + Prune(f[1..])
  }

  /** The walk of the source: `idx` stays put after a deletion and advances past
      a node whose dependencies were visited. `k` counts the input roots consumed. */
  method RemoveLeafNodes(tree: Forest) returns (leaves: set<string>, rest: Forest)
    ensures leaves == LeafIds(tree)
    ensures rest == Prune(tree)
  {
    leaves := {};
    rest := tree;
    var idx := 0;
    ghost var k := 0;
    while idx != |rest|
      invariant 0 <= k <= |tree|
      invariant idx == |Prune(tree[..k])|
      invariant rest == Prune(tree[..k]) + tree[k..]
      invariant leaves == LeafIds(tree[..k])
      decreases |tree| - k
    {
      assert rest[idx] == tree[k];
      if |rest[idx].deps| == 0 {
        DeleteStep(tree, k, rest, idx);
        leaves := leaves + {PackageId(rest[idx])};
        rest := rest[..idx] + rest[idx + 1..];
      } else {
        DescendStep(tree, k, rest, idx);
        assert tree[k] in tree;
        var sub, subRest := RemoveLeafNodes(rest[idx].deps);
        leaves := leaves + sub;
        rest := rest[idx := Node(rest[idx].key, rest[idx].version, subRest)];
        idx := idx + 1;
      }
      k := k + 1;
    }
    assert tree[..k] == tree;
  }

  /** One leaf-removal pass over a single root. This and `TwoRootPass` are
      one-step unfoldings that keep the worked scenarios within the
      verifier's resource limit. */
  lemma SingleRootPass(x: Node)
    ensures Prune([x]) == if |x.deps| == 0 then [] else [Node(x.key, x.version, Prune(x.deps))]
    ensures LeafIds([x]) == if |x.deps| == 0 then {PackageId(x)} else LeafIds(x.deps)
  {
    assert [x][1..] == [];
  }

  /** One leaf-removal pass over two roots handles them one after the other. */
  lemma TwoRootPass(x: Node, y: Node)
    ensures Prune([x, y]) == Prune([x]) + Prune([y])
    ensures LeafIds([x, y]) == LeafIds([x]) + LeafIds([y])
  {
    assert [x, y] == [x] + [y];
    PruneAppend([x], [y]);
    LeafIdsAppend([x], [y]);
  }

  /** Deleting a leaf at `idx` is the walk's step over input root `k`. */
  lemma DeleteStep(tree: Forest, k: nat, rest: Forest, idx: nat)
    requires k < |tree|
    requires idx == |Prune(tree[..k])|
    requires rest == Prune(tree[..k]) + tree[k..]
    requires |tree[k].deps| == 0
    ensures rest[..idx] + rest[idx + 1..] == Prune(tree[..k + 1]) + tree[k + 1..]
    ensures idx == |Prune(tree[..k + 1])|
    ensures LeafIds(tree[..k + 1]) == LeafIds(tree[..k]) + {PackageId(tree[k])}
  {
    PrefixStep(tree, k);
    SingleRootPass(tree[k]);
    assert rest[..idx] == Prune(tree[..k]);
    assert rest[idx + 1..] == tree[k + 1..];
  }

  /** Replacing the node at `idx` by its pruned copy and advancing is the
      walk's step over input root `k`. */
  lemma DescendStep(tree: Forest, k: nat, rest: Forest, idx: nat)
    requires k < |tree|
    requires idx == |Prune(tree[..k])|
    requires rest == Prune(tree[..k]) + tree[k..]
    requires |tree[k].deps| > 0
    ensures rest[idx := Node(tree[k].key, tree[k].version, Prune(tree[k].deps))]
         == Prune(tree[..k + 1]) + tree[k + 1..]
    ensures idx + 1 == |Prune(tree[..k + 1])|
    ensures LeafIds(tree[..k + 1]) == LeafIds(tree[..k]) + LeafIds(tree[k].deps)
  {
    PrefixStep(tree, k);
    SingleRootPass(tree[k]);
    var n := Node(tree[k].key, tree[k].version, Prune(tree[k].deps));
    assert tree[k..] == [tree[k]] + tree[k + 1..];
    ReplaceAt(Prune(tree[..k]), tree[k], n, tree[k + 1..]);
  }

  lemma ReplaceAt(p: Forest, x: Node, n: Node, t: Forest)
    ensures (p + ([x] + t))[|p| := n] == p + [n] + t
  {
  }

  /** How consuming one more root extends the two results of the pass. */
  lemma PrefixStep(tree: Forest, k: nat)
    requires k < |tree|
    ensures LeafIds(tree[..k + 1]) == LeafIds(tree[..k]) + LeafIds([tree[k]])
    ensures Prune(tree[..k + 1]) == Prune(tree[..k]) + Prune([tree[k]])
  {
    assert tree[..k + 1] == tree[..k] + [tree[k]];
    LeafIdsAppend(tree[..k], [tree[k]]);
    PruneAppend(tree[..k], [tree[k]]);
  }

  lemma {:induction false} LeafIdsAppend(a: Forest, b: Forest)
    ensures LeafIds(a + b) == LeafIds(a) + LeafIds(b)
  {
    if |a| > 0 {
      assert (a + b)[1..] == a[1..] + b;
      LeafIdsAppend(a[1..], b);
    } else {
      assert a + b == b;
    }
  }

  lemma {:induction false} PruneAppend(a: Forest, b: Forest)
    ensures Prune(a + b) == Prune(a) + Prune(b)
  {
    if |a| > 0 {
      assert (a + b)[1..] == a[1..] + b;
      PruneAppend(a[1..], b);
    } else {
      assert a + b == b;
    }
  }

  /** The pass records exactly the PackageIDs of nodes, at any depth, whose
      dependency list is empty before the pass. */
  lemma {:induction false} LeafIdsAreLeaves(f: Forest, p: string)
    ensures p in LeafIds(f) <==> exists n :: Occurs(n, f) && |n.deps| == 0 && PackageId(n) == p
  {
    if |f| > 0 {
      LeafIdsAreLeaves(f[0].deps, p);
      LeafIdsAreLeaves(f[1..], p);
      if p in LeafIds(f) {
        if |f[0].deps| == 0 && p == PackageId(f[0]) {
          assert Occurs(f[0], f);
        } else if |f[0].deps| > 0 && p in LeafIds(f[0].deps) {
          var n :| Occurs(n, f[0].deps) && |n.deps| == 0 && PackageId(n) == p;
          assert Occurs(n, f);
        } else {
          var n :| Occurs(n, f[1..]) && |n.deps| == 0 && PackageId(n) == p;
          assert Occurs(n, f);
        }
      } else {
        forall n | Occurs(n, f) && |n.deps| == 0
          ensures PackageId(n) != p
        {
          if n != f[0] && Occurs(n, f[0].deps) {
            assert |f[0].deps| > 0;
          }
        }
      }
    }
  }

  /** The remaining forest is the input with its leaf occurrences deleted: its
      pre-order walk is the input's walk without the nodes that had no
      dependencies, every other node keeping its key, version, depth and order. */
  lemma {:induction false} PruneKeepsInterior(f: Forest, d: nat)
    ensures Outline(Prune(f), d) == Interior(f, d)
  {
    if |f| > 0 {
      PruneKeepsInterior(f[1..], d);
      if |f[0].deps| > 0 {
        PruneKeepsInterior(f[0].deps, d + 1);
        var s := [Node(f[0].key, f[0].version, Prune(f[0].deps))] + Prune(f[1..]);
        assert s[0] == Node(f[0].key, f[0].version, Prune(f[0].deps));
        assert s[1..] == Prune(f[1..]);
      }
    }
  }

  /** A pass on a non-empty forest deletes at least one node, so the draining
      loops terminate; it never adds nodes. */
  lemma {:induction false} PruneShrinks(f: Forest)
    ensures Size(Prune(f)) <= Size(f)
    ensures |f| > 0 ==> Size(Prune(f)) < Size(f)
  {
    if |f| > 0 {
      PruneShrinks(f[0].deps);
      PruneShrinks(f[1..]);
      if |f[0].deps| > 0 {
        var s := [Node(f[0].key, f[0].version, Prune(f[0].deps))] + Prune(f[1..]);
        assert s[0] == Node(f[0].key, f[0].version, Prune(f[0].deps));
        assert s[1..] == Prune(f[1..]);
      }
    }
  }

  /** A pass on a non-empty forest records at least one PackageID. */
  lemma {:induction false} LeafIdsNonEmpty(f: Forest)
    requires |f| > 0
    ensures LeafIds(f) != {}
  {
    if |f[0].deps| > 0 {
      LeafIdsNonEmpty(f[0].deps);
    }
  }

  /** Every PackageID of the forest is either recorded by the pass or still
      present in the remaining forest, and nothing else is in either. */
  lemma {:induction false} AllIdsSplit(f: Forest)
    ensures AllIds(f) == LeafIds(f) + AllIds(Prune(f))
  {
    if |f| > 0 {
      AllIdsSplit(f[0].deps);
      AllIdsSplit(f[1..]);
      if |f[0].deps| > 0 {
        var s := [Node(f[0].key, f[0].version, Prune(f[0].deps))] + Prune(f[1..]);
        assert s[0] == Node(f[0].key, f[0].version, Prune(f[0].deps));
        assert s[1..] == Prune(f[1..]);
      }
    }
  }

  /** A pass needs one pass fewer to drain what it leaves behind. */
  lemma {:induction false} PruneDepth(f: Forest)
    ensures |f| == 0 ==> Depth(Prune(f)) == 0
    ensures |f| > 0 ==> Depth(Prune(f)) == Depth(f) - 1
  {
    if |f| > 0 {
      PruneDepth(f[0].deps);
      PruneDepth(f[1..]);
      if |f[0].deps| > 0 {
        var s := [Node(f[0].key, f[0].version, Prune(f[0].deps))] + Prune(f[1..]);
        assert s[0] == Node(f[0].key, f[0].version, Prune(f[0].deps));
        assert s[1..] == Prune(f[1..]);
      }
    }
  }

  /** The pass records exactly the nodes of height 0, and every surviving node
      is one step lower than it was. */
  lemma {:induction false} PruneLowersHeights(f: Forest, h: nat)
    ensures LeafIds(f) == IdsAtHeight(f, 0)
    ensures IdsAtHeight(Prune(f), h) == IdsAtHeight(f, h + 1)
  {
    if |f| > 0 {
      PruneLowersHeights(f[0].deps, h);
      PruneLowersHeights(f[1..], h);
      if |f[0].deps| > 0 {
        PruneDepth(f[0].deps);
        var s := [Node(f[0].key, f[0].version, Prune(f[0].deps))] + Prune(f[1..]);
        assert s[0] == Node(f[0].key, f[0].version, Prune(f[0].deps));
        assert s[1..] == Prune(f[1..]);
      }
    }
  }
}

=== FILE: leveling.dfy ===
/**
 The two planning strategies of the installer. Both drain the forest by repeated
 leaf-removal passes: the flattening strategy unions every pass into one set,
 the level-building strategy keeps one set per pass and then removes from each
 level the packages of the level directly below it (as it was before that step).
 */
module Leveling {
  import opened DependencyTree
  import opened LeafRemoval

  /** An install plan: an ordered sequence of levels of PackageIDs. */
  type Plan = seq<set<string>>

  /** Every PackageID named by some level. */
  function Union(levels: Plan): set<string>
  {
    if |levels| == 0 then {} else levels[0] + Union(levels[1..])
  }

  lemma {:induction false} InUnion(levels: Plan, p: string)
    ensures p in Union(levels) <==> exists i :: 0 <= i < |levels| && p in levels[i]
  {
    if |levels| > 0 {
      InUnion(levels[1..], p);
      if p in Union(levels[1..]) {
        var i :| 0 <= i < |levels[1..]| && p in levels[1..][i];
        assert p in levels[i + 1];
      }
      forall i | 1 <= i < |levels| && p in levels[i]
        ensures p in Union(levels[1..])
      {
        assert levels[1..][i - 1] == levels[i];
      }
    }
  }

  /** Everything the passes record, in one set: the draining loop of the
      flattening strategy. */
  function Drain(f: Forest): (ids: set<string>)
    ensures ids == AllIds(f)
    decreases Size(f)
  {
    if |f| == 0 then {}
    else
      PruneShrinks(f);
      AllIdsSplit(f);
      LeafIds(f) + Drain(Prune(f))
  }

  /** The flattening strategy: a one-level plan, also for the empty forest. */
  function Flatten(f: Forest): (plan: Plan)
    ensures |plan| == 1
    ensures plan[0] == AllIds(f)
  {
    [Drain(f)]
  }

  /** The levels before deduplication: one per pass until the forest is empty. */
  function Levels(f: Forest): (levels: Plan)
    ensures |levels| == Depth(f)
    ensures forall i :: 0 <= i < |levels| ==> levels[i] != {}
    ensures Union(levels) == AllIds(f)
    decreases Size(f)
  {
    if |f| == 0 then []
    else
      PruneShrinks(f);
      PruneDepth(f);
      AllIdsSplit(f);
      LeafIdsNonEmpty(f);
      var rest := Levels(Prune(f));
      assert ([LeafIds(f)] + rest)[1..] == rest;
      [LeafIds(f)] + rest
  }

  /** Pass `i` records exactly the PackageIDs of the nodes of height `i`. */
  lemma {:induction false} LevelsByHeight(f: Forest, i: nat)
    requires i < |Levels(f)|
    ensures Levels(f)[i] == IdsAtHeight(f, i)
    decreases Size(f)
  {
    PruneShrinks(f);
    PruneLowersHeights(f, 0);
    if i > 0 {
      PruneLowersHeights(f, i - 1);
      LevelsByHeight(Prune(f), i - 1);
    }
  }

  /** The deduplication step: level 0 is kept, and each higher level loses the
      PackageIDs of the level directly below it, as that level was before the
      step. Nothing is taken from levels further up and empty levels stay. */
  function Dedup(levels: Plan): (plan: Plan)
    ensures |plan| == |levels|
    ensures |plan| > 0 ==> plan[0] == levels[0]
    ensures forall i :: 0 <= i < |plan| ==> plan[i] <= levels[i]
    ensures forall i :: 0 < i < |plan| ==> plan[i] !! levels[i - 1]
    ensures forall i :: 0 < i < |plan| ==> levels[i] <= plan[i] + levels[i - 1]
  {
    seq(|levels|, i requires 0 <= i < |levels| => if i == 0 then levels[0] else levels[i] - levels[i - 1])
  }

  /** The top-down loop of the source: `current` starts at the last level and
      `level` walks from the one below it down to 0, stopping once `current`
      reaches 0. Level `current` is only changed after every level above it
      has already been reduced by it. */
  method DedupLevels(levels: Plan) returns (plan: Plan)
    ensures plan == Dedup(levels)
  {
    plan := levels;
    var current := |plan| - 1;
    var level := current - 1;
    while level >= 0
      invariant |plan| == |levels|
      invariant |levels| == 0 || 0 <= current < |levels|
      invariant current == level + 1
      invariant forall i :: 0 <= i < |plan| && i <= current ==> plan[i] == levels[i]
      invariant forall i :: 0 < i < |plan| && current < i ==> plan[i] == levels[i] - levels[i - 1]
      decreases level
    {
      plan := plan[current := plan[current] - plan[level]];
      current := current - 1;
      if current == 0 {
        break;
      }
      level := level - 1;
    }
    assert forall i :: 0 <= i < |plan| ==> plan[i] == Dedup(levels)[i];
  }

  /** The level-building strategy. */
  function Build(f: Forest): (plan: Plan)
    ensures |plan| == Depth(f)
    ensures forall i :: 0 < i < |plan| ==> plan[i] !! plan[i - 1]
    ensures |f| > 0 ==> plan[0] == LeafIds(f)
  {
    Dedup(Levels(f))
  }

  /** The first loop of the source: append one pass per iteration until the
      forest is empty; then deduplicate. */
  method BuildDependencyTree(forest: Forest) returns (plan: Plan)
    ensures plan == Build(forest)
    ensures |plan| == Depth(forest)
  {
    var tree := forest;
    var levels: Plan := [];
    while |tree| > 0
      invariant levels + Levels(tree) == Levels(forest)
      decreases Size(tree)
    {
      PruneShrinks(tree);
      var leaves, rest := RemoveLeafNodes(tree);
      assert Levels(tree) == [leaves] + Levels(rest);
      levels := levels + [leaves];
      tree := rest;
    }
    assert levels == Levels(forest);
    plan := DedupLevels(levels);
  }

  /** The loop of the flattening strategy. */
  method FlattenDependencyTree(forest: Forest) returns (plan: Plan)
    ensures |plan| == 1
    ensures plan[0] == AllIds(forest)
  {
    var tree := forest;
    var ids: set<string> := {};
    while |tree| > 0
      invariant ids + AllIds(tree) == AllIds(forest)
      decreases Size(tree)
    {
      PruneShrinks(tree);
      AllIdsSplit(tree);
      var leaves, rest := RemoveLeafNodes(tree);
      ids := ids + leaves;
      tree := rest;
    }
    plan := [ids];
  }

  /** The lowest level a PackageID was recorded at. */
  function FirstLevel(levels: Plan, p: string): (i: nat)
    requires p in Union(levels)
    ensures i < |levels|
    ensures p in levels[i]
    ensures forall j :: 0 <= j < i ==> p !in levels[j]
  {
    if p in levels[0] then 0
    else
      var i := 1 + FirstLevel(levels[1..], p);
      assert forall j :: 1 <= j < |levels| ==> levels[j] == levels[1..][j - 1];
      i
  }

  /** Consecutive levels of a deduplicated plan share no PackageID. */
  lemma DedupAdjacentDisjoint(levels: Plan, i: nat)
    requires 0 < i < |levels|
    ensures Dedup(levels)[i] !! Dedup(levels)[i - 1]
  {
  }

  /** Every PackageID stays in the lowest level it was recorded at. */
  lemma DedupKeepsLowest(levels: Plan, p: string)
    requires p in Union(levels)
    ensures p in Dedup(levels)[FirstLevel(levels, p)]
  {
  }

  /** Deduplication loses no PackageID and adds none. */
  lemma {:induction false} DedupPreservesUnion(levels: Plan)
    ensures Union(Dedup(levels)) == Union(levels)
  {
    var plan := Dedup(levels);
    forall p | p in Union(levels)
      ensures p in Union(plan)
    {
      var i := FirstLevel(levels, p);
      InUnion(plan, p);
    }
    forall p | p in Union(plan)
      ensures p in Union(levels)
    {
      InUnion(plan, p);
      InUnion(levels, p);
    }
  }

  /** The built plan schedules every PackageID of the forest and nothing else,
      each at the lowest level a pass recorded it at. */
  lemma BuildCoversForest(f: Forest)
    ensures Union(Build(f)) == AllIds(f)
    ensures forall p :: p in AllIds(f) ==> p in Build(f)[FirstLevel(Levels(f), p)]
  {
    DedupPreservesUnion(Levels(f));
  }

  /** A node is scheduled no higher than its own height. */
  lemma ScheduledByHeight(f: Forest, n: Node)
    requires Occurs(n, f)
    ensures Height(n) < |Levels(f)|
    ensures PackageId(n) in Levels(f)[Height(n)]
    ensures exists j :: 0 <= j <= Height(n) && PackageId(n) in Build(f)[j]
  {
    OccursAtHeight(n, f);
    LevelsByHeight(f, Height(n));
    var levels := Levels(f);
    InUnion(levels, PackageId(n));
    var j := FirstLevel(levels, PackageId(n));
    DedupKeepsLowest(levels, PackageId(n));
    assert PackageId(n) in Build(f)[j];
  }

  /** Every dependency of a node is scheduled strictly below the height of that
      node, i.e. below the level the passes assigned that node to. */
  lemma BuildRespectsDependencies(f: Forest, n: Node, c: Node)
    requires Occurs(n, f)
    requires c in n.deps
    ensures Height(n) < |Levels(f)|
    ensures PackageId(n) in Levels(f)[Height(n)]
    ensures exists j :: 0 <= j < Height(n) && PackageId(c) in Build(f)[j]
  {
    ScheduledByHeight(f, n);
    OccursChild(n, c, f);
    ScheduledByHeight(f, c);
  }

  /** In a consistent forest the passes record each PackageID in one level only. */
  lemma ConsistentLevelsDisjoint(f: Forest)
    requires Consistent(f)
    ensures forall i, j :: 0 <= i < j < |Levels(f)| ==> Levels(f)[i] !! Levels(f)[j]
  {
    forall i, j | 0 <= i < j < |Levels(f)|
      ensures Levels(f)[i] !! Levels(f)[j]
    {
      LevelsByHeight(f, i);
      LevelsByHeight(f, j);
      forall p | p in Levels(f)[i] && p in Levels(f)[j]
        ensures false
      {
        ConsistentHeight(f, p, i, j);
      }
    }
  }

  /** In a consistent forest deduplication changes nothing: the built plan is
      the levels the passes record. */
  lemma ConsistentBuildIsLevels(f: Forest)
    requires Consistent(f)
    ensures Build(f) == Levels(f)
  {
    ConsistentLevelsDisjoint(f);
    var levels := Levels(f);
    assert forall i :: 0 < i < |levels| ==> levels[i] !! levels[i - 1];
    assert forall i :: 0 <= i < |levels| ==> Dedup(levels)[i] == levels[i];
  }

  /** In a consistent forest every level of the built plan comes after the
      levels holding the dependencies of its packages. */
  lemma ConsistentBuildValid(f: Forest, n: Node, c: Node, i: nat)
    requires Consistent(f)
    requires Occurs(n, f)
    requires c in n.deps
    requires i < |Build(f)|
    requires PackageId(n) in Build(f)[i]
    ensures exists j :: 0 <= j < i && PackageId(c) in Build(f)[j]
  {
    ConsistentBuildIsLevels(f);
    LevelsByHeight(f, i);
    IdsAtHeightOccur(f, i, PackageId(n));
    var m :| Occurs(m, f) && Height(m) == i && PackageId(m) == PackageId(n);
    assert m.deps == n.deps;
    BuildRespectsDependencies(f, n, c);
  }
}

=== FILE: scenarios.dfy ===
/**
 Small forests worked through the model: a four-package example plan, the
 pass that leaves an emptied parent for later, and the shapes where the
 deduplication of the source keeps a package twice (so it is installed twice),
 keeps an empty level, or schedules a package below one of its dependencies.
 */
module Scenarios {
  import opened DependencyTree
  import opened LeafRemoval
  import opened Leveling
  import opened Installer

  function Leaf(key: string): Node
  {
    Node(key, "1", [])
  }

  function ExampleForest(): Forest
  {
    [Node("a", "1", [Leaf("b"), Node("c", "1", [Leaf("d")])]), Leaf("d")]
  }

  /** The first pass over `ExampleForest` takes `b` and `d` (both occurrences)
      and leaves `c` without dependencies, not yet taken. */
  lemma ExampleFirstPass()
    ensures LeafIds(ExampleForest()) == {"b==1", "d==1"}
    ensures Prune(ExampleForest()) == [Node("a", "1", [Leaf("c")])]
  {
    var c := Node("c", "1", [Leaf("d")]);
    var a := Node("a", "1", [Leaf("b"), c]);
    assert PackageId(Leaf("b")) == "b==1" && PackageId(Leaf("d")) == "d==1";
    TwoRootPass(a, Leaf("d"));
    SingleRootPass(a);
    SingleRootPass(Leaf("d"));
    TwoRootPass(Leaf("b"), c);
    SingleRootPass(Leaf("b"));
    SingleRootPass(c);
  }

  /** The passes over `ExampleForest` take `b` and `d`, then `c`, then `a`. */
  lemma ExampleLevels()
    ensures Levels(ExampleForest()) == [{"b==1", "d==1"}, {"c==1"}, {"a==1"}]
  {
    ExampleFirstPass();
    assert PackageId(Leaf("a")) == "a==1" && PackageId(Leaf("c")) == "c==1";
    var f1 := [Node("a", "1", [Leaf("c")])];
    SingleRootPass(f1[0]);
    SingleRootPass(Leaf("c"));
    var f2 := [Leaf("a")];
    assert Prune(f1) == f2;
    assert LeafIds(f1) == {"c==1"};
    SingleRootPass(Leaf("a"));
    assert Prune(f2) == [];
    assert LeafIds(f2) == {"a==1"};
    assert Levels(f2) == [{"a==1"}];
    assert Levels(f1) == [{"c==1"}, {"a==1"}];
  }

  /** A four-package plan: `a` depends on `b` and `c`, `c` on `d`, and `d` is
      also a root. */
  lemma ExamplePlan()
    ensures Build(ExampleForest()) == [{"b==1", "d==1"}, {"c==1"}, {"a==1"}]
    ensures Flatten(ExampleForest()) == [{"a==1", "b==1", "c==1", "d==1"}]
  {
    ExampleLevels();
    var levels := [{"b==1", "d==1"}, {"c==1"}, {"a==1"}];
    assert Dedup(levels)[1] == levels[1];
    assert Dedup(levels)[2] == levels[2];
    assert levels[1..][1..][1..] == [];
    assert Union(levels) == {"a==1", "b==1", "c==1", "d==1"};
  }

  /** A parent whose only dependency is taken by a pass is not taken by the
      same pass: it is left behind with an empty dependency list. */
  lemma EmptiedParentWaits()
    ensures var f := [Node("a", "1", [Leaf("b")])];
            LeafIds(f) == {"b==1"} && Prune(f) == [Leaf("a")]
  {
    var f := [Node("a", "1", [Leaf("b")])];
    assert f[1..] == [];
    assert f[0].deps[1..] == [];
    assert PackageId(Leaf("b")) == "b==1";
  }

  /** The empty forest: flattening still yields one (empty) level, building
      yields none. */
  lemma EmptyForest()
    ensures Flatten([]) == [{}]
    ensures Build([]) == []
  {
  }

  function KeptTwiceForest(): Forest
  {
    [Leaf("p"), Node("q", "1", [Node("p", "1", [Node("s", "1", [Leaf("t")])])])]
  }

  /** The first pass over `KeptTwiceForest` takes `p` (the root) and `t`. */
  lemma KeptTwiceFirstPass()
    ensures LeafIds(KeptTwiceForest()) == {"p==1", "t==1"}
    ensures Prune(KeptTwiceForest()) == [Node("q", "1", [Node("p", "1", [Leaf("s")])])]
  {
    var s := Node("s", "1", [Leaf("t")]);
    var p := Node("p", "1", [s]);
    var q := Node("q", "1", [p]);
    assert PackageId(Leaf("p")) == "p==1" && PackageId(Leaf("t")) == "t==1";
    TwoRootPass(Leaf("p"), q);
    SingleRootPass(Leaf("p"));
    SingleRootPass(q);
    SingleRootPass(p);
    SingleRootPass(s);
    SingleRootPass(Leaf("t"));
  }

  /** The later passes take `s`, then the inner `p`, then `q`. */
  lemma KeptTwiceLaterPasses()
    ensures Levels([Node("q", "1", [Node("p", "1", [Leaf("s")])])]) == [{"s==1"}, {"p==1"}, {"q==1"}]
  {
    assert PackageId(Leaf("p")) == "p==1" && PackageId(Leaf("q")) == "q==1";
    assert PackageId(Leaf("s")) == "s==1";
    var f1 := [Node("q", "1", [Node("p", "1", [Leaf("s")])])];
    SingleRootPass(f1[0]);
    SingleRootPass(f1[0].deps[0]);
    SingleRootPass(Leaf("s"));
    var f2 := [Node("q", "1", [Leaf("p")])];
    assert Prune(f1) == f2;
    assert LeafIds(f1) == {"s==1"};
    SingleRootPass(f2[0]);
    SingleRootPass(Leaf("p"));
    var f3 := [Leaf("q")];
    assert Prune(f2) == f3;
    assert LeafIds(f2) == {"p==1"};
    SingleRootPass(Leaf("q"));
    assert Prune(f3) == [];
    assert LeafIds(f3) == {"q==1"};
    assert Levels(f3) == [{"q==1"}];
    assert Levels(f2) == [{"p==1"}, {"q==1"}];
  }

  /** When one PackageID sits at heights 0 and 2, deduplication only compares
      neighbouring levels, so the package stays in levels 0 and 2. */
  lemma PackageKeptTwice()
    ensures Build(KeptTwiceForest()) == [{"p==1", "t==1"}, {"s==1"}, {"p==1"}, {"q==1"}]
  {
    KeptTwiceFirstPass();
    KeptTwiceLaterPasses();
    var levels := [{"p==1", "t==1"}, {"s==1"}, {"p==1"}, {"q==1"}];
    assert Levels(KeptTwiceForest()) == levels;
    assert Dedup(levels)[1] == levels[1];
    assert Dedup(levels)[2] == levels[2];
    assert Dedup(levels)[3] == levels[3];
  }

  /** The package kept in two levels gets a pip command with each of them. */
  lemma PackageInstalledTwice(cfg: Config)
    requires !cfg.skipDependencyCheck
    ensures 2 < |Install(cfg, KeptTwiceForest())|
    ensures InstallCommand(cfg, "p==1") in Install(cfg, KeptTwiceForest())[0]
    ensures InstallCommand(cfg, "p==1") in Install(cfg, KeptTwiceForest())[2]
  {
    PackageKeptTwice();
    InstallLevel(cfg, KeptTwiceForest(), 0, "p==1");
    InstallLevel(cfg, KeptTwiceForest(), 2, "p==1");
  }

  /** A level whose every package is also in the level below becomes empty
      and stays in the plan. */
  lemma EmptyLevelKept()
    ensures var f := [Leaf("p"), Node("r", "1", [Node("p", "1", [Leaf("s")])])];
            Build(f) == [{"p==1", "s==1"}, {}, {"r==1"}]
  {
    var p := Node("p", "1", [Leaf("s")]);
    var r := Node("r", "1", [p]);
    var f := [Leaf("p"), r];
    assert PackageId(Leaf("p")) == "p==1" && PackageId(Leaf("r")) == "r==1";
    assert PackageId(Leaf("s")) == "s==1";
    TwoRootPass(Leaf("p"), r);
    SingleRootPass(Leaf("p"));
    SingleRootPass(r);
    SingleRootPass(p);
    SingleRootPass(Leaf("s"));
    var f1 := [Node("r", "1", [Leaf("p")])];
    assert Prune(f) == f1;
    assert LeafIds(f) == {"p==1", "s==1"};
    SingleRootPass(f1[0]);
    var f2 := [Leaf("r")];
    assert Prune(f1) == f2;
    assert LeafIds(f1) == {"p==1"};
    SingleRootPass(Leaf("r"));
    assert Prune(f2) == [];
    assert LeafIds(f2) == {"r==1"};
    var levels := [{"p==1", "s==1"}, {"p==1"}, {"r==1"}];
    assert Levels(f2) == levels[2..];
    assert Levels(f1) == levels[1..];
    assert Levels(f) == levels;
    assert Dedup(levels)[1] == {};
    assert Dedup(levels)[2] == levels[2];
  }

  /** A forest where `p` occurs with two different dependency lists: once
      depending on `x`, once on `s`. */
  function BelowDependencyForest(): Forest
  {
    [Leaf("p"),
     Node("q", "1", [Node("p", "1", [Leaf("x")])]),
     Node("r", "1", [Node("p", "1", [Node("s", "1", [Leaf("y")])])])]
  }

  /** The first pass takes the root `p`, `x` and `y`. */
  lemma BelowDependencyFirstPass()
    ensures LeafIds(BelowDependencyForest()) == {"p==1", "x==1", "y==1"}
    ensures Prune(BelowDependencyForest())
         == [Node("q", "1", [Leaf("p")]), Node("r", "1", [Node("p", "1", [Leaf("s")])])]
  {
    var f := BelowDependencyForest();
    var s := Node("s", "1", [Leaf("y")]);
    var p1 := Node("p", "1", [Leaf("x")]);
    var p2 := Node("p", "1", [s]);
    var q := Node("q", "1", [p1]);
    var r := Node("r", "1", [p2]);
    assert PackageId(Leaf("p")) == "p==1" && PackageId(Leaf("x")) == "x==1";
    assert PackageId(Leaf("y")) == "y==1";
    assert f == [Leaf("p")] + [q, r];
    PruneAppend([Leaf("p")], [q, r]);
    LeafIdsAppend([Leaf("p")], [q, r]);
    TwoRootPass(q, r);
    SingleRootPass(Leaf("p"));
    SingleRootPass(q);
    SingleRootPass(r);
    SingleRootPass(p1);
    SingleRootPass(p2);
    SingleRootPass(s);
    SingleRootPass(Leaf("x"));
    SingleRootPass(Leaf("y"));
  }

  /** The second pass takes `p` under `q` and `s`, leaving `p` under `r`. */
  lemma BelowDependencySecondPass()
    ensures var f1 := [Node("q", "1", [Leaf("p")]), Node("r", "1", [Node("p", "1", [Leaf("s")])])];
            LeafIds(f1) == {"p==1", "s==1"} && Prune(f1) == [Leaf("q"), Node("r", "1", [Leaf("p")])]
  {
    var p2 := Node("p", "1", [Leaf("s")]);
    var q := Node("q", "1", [Leaf("p")]);
    var r := Node("r", "1", [p2]);
    assert PackageId(Leaf("p")) == "p==1" && PackageId(Leaf("s")) == "s==1";
    TwoRootPass(q, r);
    SingleRootPass(q);
    SingleRootPass(r);
    SingleRootPass(p2);
    SingleRootPass(Leaf("p"));
    SingleRootPass(Leaf("s"));
  }

  /** The last two passes take `q` and the remaining `p`, then `r`. */
  lemma BelowDependencyLastPasses()
    ensures Levels([Leaf("q"), Node("r", "1", [Leaf("p")])]) == [{"q==1", "p==1"}, {"r==1"}]
  {
    var f2 := [Leaf("q"), Node("r", "1", [Leaf("p")])];
    assert PackageId(Leaf("p")) == "p==1" && PackageId(Leaf("q")) == "q==1";
    assert PackageId(Leaf("r")) == "r==1";
    TwoRootPass(Leaf("q"), f2[1]);
    SingleRootPass(Leaf("q"));
    SingleRootPass(f2[1]);
    SingleRootPass(Leaf("p"));
    var f3 := [Leaf("r")];
    assert Prune(f2) == f3;
    assert LeafIds(f2) == {"q==1", "p==1"};
    SingleRootPass(Leaf("r"));
    assert Prune(f3) == [];
    assert LeafIds(f3) == {"r==1"};
    assert Levels(f3) == [{"r==1"}];
  }

  /** The passes record `p` in each of the first three levels. */
  lemma BelowDependencyLevels()
    ensures Levels(BelowDependencyForest())
         == [{"p==1", "x==1", "y==1"}, {"p==1", "s==1"}, {"q==1", "p==1"}, {"r==1"}]
  {
    var f := BelowDependencyForest();
    BelowDependencyFirstPass();
    BelowDependencySecondPass();
    BelowDependencyLastPasses();
    var f1 := Prune(f);
    var levels := [{"p==1", "x==1", "y==1"}, {"p==1", "s==1"}, {"q==1", "p==1"}, {"r==1"}];
    assert Levels(Prune(f1)) == levels[2..];
    assert Levels(f1) == levels[1..];
  }

  /** When `p` occurs with different dependency lists, the built plan puts `p`
      in level 0 although the `p` under `r` depends on `s`, which is only in
      level 1. */
  lemma PackageBelowItsDependency()
    ensures Build(BelowDependencyForest()) == [{"p==1", "x==1", "y==1"}, {"s==1"}, {"q==1"}, {"r==1"}]
    ensures Occurs(Node("p", "1", [Node("s", "1", [Leaf("y")])]), BelowDependencyForest())
  {
    BelowDependencyOccurs();
    BelowDependencyLevels();
    BelowDependencyDedup();
  }

  lemma BelowDependencyDedup()
    ensures Dedup([{"p==1", "x==1", "y==1"}, {"p==1", "s==1"}, {"q==1", "p==1"}, {"r==1"}])
         == [{"p==1", "x==1", "y==1"}, {"s==1"}, {"q==1"}, {"r==1"}]
  {
    var levels := [{"p==1", "x==1", "y==1"}, {"p==1", "s==1"}, {"q==1", "p==1"}, {"r==1"}];
    assert Dedup(levels)[1] == {"s==1"};
    assert Dedup(levels)[2] == {"q==1"};
    assert Dedup(levels)[3] == levels[3];
  }

  lemma BelowDependencyOccurs()
    ensures Occurs(Node("p", "1", [Node("s", "1", [Leaf("y")])]), BelowDependencyForest())
  {
    var f := BelowDependencyForest();
    assert Occurs(f[2].deps[0], f[2].deps);
    assert Occurs(f[2].deps[0], f[1..][1..]);
  }
}

=== FILE: tree.dfy ===
/**
 The dependency forest read from `pipdeptree --json-tree`: every node carries a
 package key, its installed version and the ordered list of packages it depends on.
 This module defines the forest, the PackageID of a node, and the measures
 (node count, height, outline) that the leveling passes are described with.
 */
module DependencyTree {

  /** One package and its direct dependency subtree. A JSON object missing one of
      the three keys cannot be written as a `Node`. */
  datatype Node = Node(key: string, version: string, deps: seq<Node>)

  /** An ordered sequence of root nodes. */
  type Forest = seq<Node>

  /** The PackageID `key==installed_version`, the unit of scheduling and of
      deduplication. */
  function PackageId(n: Node): (id: string)
    ensures |id| == |n.key| + 2 + |n.version|
    ensures id[..|n.key|] == n.key
    ensures id[|n.key|..|n.key| + 2] == "=="
    ensures id[|n.key| + 2..] == n.version
  {
    n.key + "==" + n.version
  }

  function Max(a: int, b: int): int
  {
    if a < b then b else a
  }

  /** Number of nodes at any depth of the forest. */
  function Size(f: Forest): nat
  {
    if |f| == 0 then 0 else 1 + Size(f[0].deps) + Size(f[1..])
  }

  /** `n` is one of the nodes of `f`, at any depth. */
  predicate Occurs(n: Node, f: Forest)
  {
    |f| > 0 && (f[0] == n || Occurs(n, f[0].deps) || Occurs(n, f[1..]))
  }

  /** Every PackageID of the forest, at any depth. */
  function AllIds(f: Forest): set<string>
  {
    if |f| == 0 then {} else {PackageId(f[0])} + AllIds(f[0].deps) + AllIds(f[1..])
  }

  /** One more than the greatest height of a root, or 0 for the empty forest:
      the number of leaf-removal passes the forest needs. */
  function Depth(f: Forest): nat
  {
    if |f| == 0 then 0 else Max(1 + Depth(f[0].deps), Depth(f[1..]))
  }

  /** Length of the longest dependency chain below `n`; 0 for a leaf. */
  function Height(n: Node): nat
  {
    Depth(n.deps)
  }

  /** The PackageIDs of the nodes of `f` whose height is `h`. */
  function IdsAtHeight(f: Forest, h: nat): set<string>
  {
    if |f| == 0 then {}
    else (if Height(f[0]) == h then {PackageId(f[0])} else {})
         + IdsAtHeight(f[0].deps, h) + IdsAtHeight(f[1..], h)
  }

  /** A node seen in a pre-order walk, with its depth below the roots. */
  datatype Entry = Entry(depth: nat, key: string, version: string)

  /** The pre-order walk of the forest, roots at depth `d`. Together with the
      depths it determines the forest (`OutlineDetermines`). */
  function Outline(f: Forest, d: nat): seq<Entry>
  {
    if |f| == 0 then []
    else [Entry(d, f[0].key, f[0].version)] + Outline(f[0].deps, d + 1) + Outline(f[1..], d)
  }

  /** The pre-order walk restricted to nodes that have at least one dependency. */
  function Interior(f: Forest, d: nat): seq<Entry>
  {
    if |f| == 0 then []
    else if |f[0].deps| == 0 then Interior(f[1..], d)
    else [Entry(d, f[0].key, f[0].version)] + Interior(f[0].deps, d + 1) + Interior(f[1..], d)
  }

  lemma {:induction false} OutlineLength(f: Forest, d: nat)
    ensures |Outline(f, d)| == Size(f)
  {
    if |f| > 0 {
      OutlineLength(f[0].deps, d + 1);
      OutlineLength(f[1..], d);
    }
  }

  /** `AllIds` collects exactly the PackageIDs of the nodes that occur in the forest. */
  lemma {:induction false} AllIdsOccur(f: Forest, p: string)
    ensures p in AllIds(f) <==> exists n :: Occurs(n, f) && PackageId(n) == p
  {
    if |f| > 0 {
      AllIdsOccur(f[0].deps, p);
      AllIdsOccur(f[1..], p);
      if p in AllIds(f) {
        if p == PackageId(f[0]) {
          assert Occurs(f[0], f);
        } else if p in AllIds(f[0].deps) {
          var n :| Occurs(n, f[0].deps) && PackageId(n) == p;
          assert Occurs(n, f);
        } else {
          var n :| Occurs(n, f[1..]) && PackageId(n) == p;
          assert Occurs(n, f);
        }
      }
    }
  }

  /** A node's height is below the number of passes its forest needs, and its
      PackageID is among those of its height. */
  lemma {:induction false} OccursAtHeight(n: Node, f: Forest)
    requires Occurs(n, f)
    ensures Height(n) < Depth(f)
    ensures PackageId(n) in IdsAtHeight(f, Height(n))
  {
    if f[0] != n {
      if Occurs(n, f[0].deps) {
        OccursAtHeight(n, f[0].deps);
      } else {
        OccursAtHeight(n, f[1..]);
      }
    }
  }

  /** The dependencies of a node of the forest are nodes of the forest, of
      smaller height. */
  lemma {:induction false} OccursChild(n: Node, c: Node, f: Forest)
    requires Occurs(n, f)
    requires c in n.deps
    ensures Occurs(c, f)
    ensures Height(c) < Height(n)
  {
    ChildOccurs(c, n.deps);
    DepthBound(c, n.deps);
    OccursWithin(n, c, f);
  }

  lemma {:induction false} ChildOccurs(c: Node, f: Forest)
    requires c in f
    ensures Occurs(c, f)
  {
    if f[0] != c {
      assert c in f[1..];
      ChildOccurs(c, f[1..]);
    }
  }

  lemma {:induction false} DepthBound(c: Node, f: Forest)
    requires c in f
    ensures Height(c) < Depth(f)
  {
    if f[0] != c {
      assert c in f[1..];
      DepthBound(c, f[1..]);
    }
  }

  lemma {:induction false} OccursWithin(n: Node, c: Node, f: Forest)
    requires Occurs(n, f)
    requires Occurs(c, n.deps)
    ensures Occurs(c, f)
  {
    if f[0] != n {
      if Occurs(n, f[0].deps) {
        OccursWithin(n, c, f[0].deps);
      } else {
        OccursWithin(n, c, f[1..]);
      }
    }
  }

  /** Every PackageID among those of height `h` belongs to a node of that height. */
  lemma {:induction false} IdsAtHeightOccur(f: Forest, h: nat, p: string)
    requires p in IdsAtHeight(f, h)
    ensures exists n :: Occurs(n, f) && Height(n) == h && PackageId(n) == p
  {
    if Height(f[0]) == h && p == PackageId(f[0]) {
      assert Occurs(f[0], f);
    } else if p in IdsAtHeight(f[0].deps, h) {
      IdsAtHeightOccur(f[0].deps, h, p);
      var n :| Occurs(n, f[0].deps) && Height(n) == h && PackageId(n) == p;
      assert Occurs(n, f);
    } else {
      IdsAtHeightOccur(f[1..], h, p);
      var n :| Occurs(n, f[1..]) && Height(n) == h && PackageId(n) == p;
      assert Occurs(n, f);
    }
  }

  /** Every occurrence of a PackageID in the forest has the same dependency
      list, as in a report where each installed package is listed once with
      its requirements. */
  ghost predicate Consistent(f: Forest)
  {
    forall m, n :: Occurs(m, f) && Occurs(n, f) && PackageId(m) == PackageId(n) ==> m.deps == n.deps
  }

  /** In a consistent forest a PackageID has a single height. */
  lemma ConsistentHeight(f: Forest, p: string, i: nat, j: nat)
    requires Consistent(f)
    requires p in IdsAtHeight(f, i)
    requires p in IdsAtHeight(f, j)
    ensures i == j
  {
    IdsAtHeightOccur(f, i, p);
    IdsAtHeightOccur(f, j, p);
  }

  /** How an outline followed by further entries begins. */
  lemma OutlineFollowedBy(f: Forest, d: nat, r: seq<Entry>)
    requires |r| == 0 || r[0].depth < d
    ensures |f| == 0 ==> Outline(f, d) + r == r
    ensures |f| > 0 ==> Outline(f, d) + r
                        == [Entry(d, f[0].key, f[0].version)] + (Outline(f[0].deps, d + 1) + (Outline(f[1..], d) + r))
    ensures |Outline(f, d) + r| == 0 || (Outline(f, d) + r)[0].depth <= d
    ensures |f| > 0 <==> |Outline(f, d) + r| > 0 && (Outline(f, d) + r)[0].depth == d
  {
  }

  lemma ConsParts(x: Entry, y: Entry, s: seq<Entry>, t: seq<Entry>)
    requires [x] + s == [y] + t
    ensures x == y && s == t
  {
    assert ([x] + s)[0] == x && ([y] + t)[0] == y;
    assert ([x] + s)[1..] == s && ([y] + t)[1..] == t;
  }

  /** Equal outlines followed by shallower entries start with the same root,
      followed by equal walks of what comes after it. */
  lemma OutlineSplitStep(f: Forest, g: Forest, d: nat, r1: seq<Entry>, r2: seq<Entry>)
    requires Outline(f, d) + r1 == Outline(g, d) + r2
    requires |r1| == 0 || r1[0].depth < d
    requires |r2| == 0 || r2[0].depth < d
    requires |f| > 0
    ensures |g| > 0 && f[0].key == g[0].key && f[0].version == g[0].version
    ensures Outline(f[0].deps, d + 1) + (Outline(f[1..], d) + r1)
         == Outline(g[0].deps, d + 1) + (Outline(g[1..], d) + r2)
    ensures |Outline(f[1..], d) + r1| == 0 || (Outline(f[1..], d) + r1)[0].depth < d + 1
    ensures |Outline(g[1..], d) + r2| == 0 || (Outline(g[1..], d) + r2)[0].depth < d + 1
  {
    OutlineFollowedBy(f, d, r1);
    OutlineFollowedBy(g, d, r2);
    OutlineFollowedBy(f[1..], d, r1);
    OutlineFollowedBy(g[1..], d, r2);
    ConsParts(Entry(d, f[0].key, f[0].version), Entry(d, g[0].key, g[0].version),
              Outline(f[0].deps, d + 1) + (Outline(f[1..], d) + r1),
              Outline(g[0].deps, d + 1) + (Outline(g[1..], d) + r2));
  }

  /** An outline followed by entries shallower than its roots can be split
      back into the forest and those entries. */
  lemma {:induction false} OutlineSplits(f: Forest, g: Forest, d: nat, r1: seq<Entry>, r2: seq<Entry>)
    requires Outline(f, d) + r1 == Outline(g, d) + r2
    requires |r1| == 0 || r1[0].depth < d
    requires |r2| == 0 || r2[0].depth < d
    ensures f == g && r1 == r2
    decreases f
  {
    if |f| > 0 {
      OutlineSplitStep(f, g, d, r1, r2);
      OutlineSplits(f[0].deps, g[0].deps, d + 1, Outline(f[1..], d) + r1, Outline(g[1..], d) + r2);
      OutlineSplits(f[1..], g[1..], d, r1, r2);
      assert f == [f[0]] + f[1..];
      assert g == [g[0]] + g[1..];
    } else {
      OutlineFollowedBy(f, d, r1);
      OutlineFollowedBy(g, d, r2);
    }
  }

  /** Two forests with the same outline are the same forest. */
  lemma OutlineDetermines(f: Forest, g: Forest, d: nat)
    requires Outline(f, d) == Outline(g, d)
    ensures f == g
  {
    assert Outline(f, d) + [] == Outline(g, d) + [];
    OutlineSplits(f, g, d, [], []);
  }
}
